=== FILE: README.md ===
# CORS proxy for `kubectl proxy` — a Dafny model

`cors-proxy.py` is a small HTTP server that sits in front of `kubectl proxy`
(`http://localhost:8001`). It relays every `GET`, `POST`, `PUT`, `DELETE` and
`PATCH` request to that upstream and adds four permissive CORS headers to
every answer the handler writes. It also answers `OPTIONS` preflights itself. This project models
the decisions `CORSProxyHandler` makes for one request, as pure functions:

- which command is served;
- the outbound `urllib.request.Request`: its URL, method, optional body and its
  single possible `Content-Type` header;
- how `int()` reads `Content-Length`, and the `ValueError` text it produces;
- the response built from what `urlopen` did: a response, an `HTTPError`, or
  any other exception;
- the filter that drops upstream `Server`, `Date` and `Connection` headers.

The upstream is a function parameter `upstream: Outbound -> Upstream`, where
`Upstream = Ok(status, headers, body) | HttpError(code, body) | Failure(message)`.
A handled request yields an `Exchange(sent, response)`. `sent == None` means no
request reached the upstream.

Modules:

- `Options` (options.dfy): the `Option` type.
- `Text` (text.dfy): bytes, Python's `str.lower` on header names, and UTF-8
  (`str.encode()`) with its decoder.
- `PyRepr` (repr.dfy): CPython's `repr` of a `str`, with a reader for it.
- `PyInt` (pyint.dfy): CPython's `int(s)` in base 10 on a `str`, and `str(n)`.
  It also gives the `ValueError` message, which is
  `invalid literal for int() with base 10: ` followed by `repr(s)` cut to 200
  characters.
- `HeaderList` (headers.dfy): header lists, case-insensitive lookup as
  `email.message.Message.get` does it, and the response-header filter. The
  filter is given both as a function and as the loop the source runs.
- `CorsProxy` (proxy.dfy): configuration, the CORS header list, dispatch, the
  outbound request, the three response branches and the header lines on the wire.

Points where the code's behaviour is easy to misread:

- The outbound `Content-Type` depends on `if body:`, not on
  `content_length > 0`. The handler reads at most `Content-Length` bytes
  (`ReadBody`). If the client sends none and then closes its side, an empty body is attached and no
  `Content-Type` is set (`CorsProxy.HeaderOnlyWithBody`). With the full body
  sent, the two conditions agree.
- `send_response` in the server base class writes `Server` and `Date` before
  the handler's own headers. `Response.headers` holds the headers the handler
  writes, and these begin with the four CORS headers. `OnWire` puts the base
  class's two lines in front. The server version string and the date come in
  as the parameter `Env`.
- There are four CORS headers: `Access-Control-Allow-Origin`,
  `-Methods`, `-Headers` and `-Max-Age`.
- A `Content-Length` that `int()` rejects takes the generic exception branch.
  The result is status 500, no request sent, and the `ValueError` text as body.
- So does a length that parses but exceeds 2^63 - 1. `rfile.read(n)` converts
  `n` to a C `Py_ssize_t` and raises `OverflowError` before reading anything.
- `int()` skips less whitespace than `str.isspace` accepts. An ASCII character
  counts only if it is TAB..CR or SPACE, so `Content-Length: \x1c5` is rejected.
  Above ASCII, NEL and NO-BREAK SPACE are skipped.
- Header text is decoded as ISO-8859-1, so it lies in U+0000..U+00FF. On that
  range `str.lower`, the whitespace `int()` skips and `str.isprintable` are
  modelled exactly.

## Model

| member | source | states |
|---|---|---|
| `CorsProxy.VerbOf` | cors-proxy.py:18-37 | a command selects a handler only if it is literally one of the six names; the verb selected is named by the command |
| `CorsProxy.VerbOfName` | cors-proxy.py:18-37 | each of the six verbs is selected by its own name, so `VerbOf` inverts `Name` |
| `CorsProxy.Handle` | cors-proxy.py:18-41 | a request is handled exactly when its command has a `do_` method; every handled response's headers begin with the four CORS headers; a sent request keeps the inbound command as method, has URL = base + path verbatim, and never comes from `OPTIONS` |
| `CorsProxy.SendsToKubectl` | cors-proxy.py:13-41 | with the configured base, every request sent goes to `http://localhost:8001` followed by the inbound path verbatim |
| `CorsProxy.PreflightIsLocal` | cors-proxy.py:18-22 | `OPTIONS` sends nothing upstream; the answer is 200, exactly the CORS headers and an empty body, for every path, header set and upstream |
| `CorsProxy.OnlySentRequestMatters` | cors-proxy.py:55-59 | the upstream is consulted at most once, on the request recorded as sent: two upstreams that agree on that request give identical exchanges |
| `CorsProxy.ForwardedRequest` | cors-proxy.py:24-56 | for GET/POST/PUT/DELETE/PATCH a request is sent iff `Content-Length` is absent or parses to at most 2^63 - 1; it then has the inbound method and URL `base + path` |
| `CorsProxy.BuildOutbound` | cors-proxy.py:41-56 | the outbound URL is the base followed by the path, unchanged; the method is the inbound command; the body is the one read |
| `CorsProxy.Proxy` | cors-proxy.py:39-83 | a request is built exactly when the declared length parses and `read` accepts it; the response is then the answer to that very request, and otherwise a 500 with only the CORS headers |
| `CorsProxy.ReadBody` | cors-proxy.py:46-47 | the read fails iff the size exceeds 2^63 - 1, with the `OverflowError` text; otherwise a body exists iff the size is positive, is a prefix of the client's bytes no longer than the size, and is exactly the first `n` bytes, or all of them when fewer were sent |
| `CorsProxy.BodyFollowsLength` | cors-proxy.py:45-47 | a request is sent iff the declared length is at most 2^63 - 1; it carries a body iff the length is positive, which is the first `n` bytes, or all bytes sent when there are fewer |
| `CorsProxy.LengthTooLargeIs500` | cors-proxy.py:46-47 | a declared length above 2^63 - 1 sends nothing and answers 500 with the CORS headers and the UTF-8 `OverflowError` text |
| `CorsProxy.OutboundHeaders` | cors-proxy.py:50-53 | at most one outbound header, present iff the body is non-empty, named `Content-Type`, with the first inbound `Content-Type` value in any case, or `application/json` when there is none |
| `CorsProxy.NoLengthNoBody` | cors-proxy.py:45-53 | with no `Content-Length` header (any case) a request is sent with no body and no headers |
| `CorsProxy.NonPositiveLengthNoBody` | cors-proxy.py:45-53 | a declared length of 0 or below sends no body and no headers |
| `CorsProxy.ContentTypeWithBody` | cors-proxy.py:45-56 | with a full body of at most 2^63 - 1 bytes the sent headers are exactly one `Content-Type`: the inbound one (first, any case) if present, else `application/json` |
| `CorsProxy.HeaderOnlyWithBody` | cors-proxy.py:46-53 | the outbound request has a header iff its body is non-empty; a declared length with no bytes sent gives an empty body and no header |
| `CorsProxy.DeclaredLength` | cors-proxy.py:45 | with no `Content-Length` header in any case the length is 0; a non-zero length comes from such a header; a rejected length comes from such a header whose value `int()` refuses, and carries that value's `ValueError` text |
| `CorsProxy.DeclaredLengthFromFirst` | cors-proxy.py:45 | only the first `Content-Length` header in any case decides: headers of other names before it and anything after it, a second `Content-Length` included, change nothing |
| `CorsProxy.DeclaredLengthOfFormatted` | cors-proxy.py:45 | a `Content-Length` holding `str(n)`, with any whitespace before it and any (possibly different) whitespace after it, declares exactly `n`; this covers a value such as `"5 "` |
| `CorsProxy.BadLengthIs500` | cors-proxy.py:79-83 | a length `int()` rejects sends nothing and answers 500 with the CORS headers and the UTF-8 `ValueError` text |
| `CorsProxy.Respond` | cors-proxy.py:59-83 | in each of the three branches the response headers start with the four CORS headers |
| `CorsProxy.SuccessRelayed` | cors-proxy.py:59-72 | on success the status and body are the upstream's, verbatim; the headers are the CORS headers followed by the filtered upstream headers |
| `CorsProxy.HttpErrorRelayed` | cors-proxy.py:74-78 | on `HTTPError` the status and body are the error's; the headers are only the CORS headers |
| `CorsProxy.FailureIs500` | cors-proxy.py:79-83 | on any other exception: 500, only the CORS headers, and a body that decodes back to the exception text |
| `CorsProxy.ResponseHeadersShape` | cors-proxy.py:59-92 | every handled response's headers are the CORS headers followed by nothing, or on success by the filtered upstream headers |
| `CorsProxy.CorsHasNoExcluded` | cors-proxy.py:85-92 | no CORS header is named `server`, `date` or `connection` |
| `CorsProxy.NoExcludedFromHandler` | cors-proxy.py:59-92 | the handler never writes a `Server`, `Date` or `Connection` header, in any case, whatever the upstream sent |
| `CorsProxy.PreludeCounts` | cors-proxy.py:61 | the lines `send_response` adds hold one `Server`, one `Date` and no `Connection` |
| `CorsProxy.OnWire` | cors-proxy.py:61 | the wire carries the handler's own header lines unchanged after two more: one extra `Server`, one extra `Date`, no extra `Connection` |
| `CorsProxy.OneServerOneDate` | cors-proxy.py:61-67 | on the wire every handled response has exactly one `Server` and one `Date` line, the proxy's own, and no `Connection` line |
| `HeaderList.FindName` | cors-proxy.py:52-53 | the index found is that of the first header with the name, in any case, or the list length when none has it |
| `HeaderList.Lookup` | cors-proxy.py:45 | `get` returns nothing only when no header has the name in any case, and otherwise the value of some header with that name |
| `HeaderList.LookupFirstOf` | cors-proxy.py:52-53 | headers of other names in front of the first match, and anything after it, do not change what `get` returns |
| `HeaderList.LookupFindsFirst` | cors-proxy.py:45 | `get` finds a value iff some header has the name, in any case, and then it is the value of the first such header |
| `HeaderList.Relayed` | cors-proxy.py:65-67 | no relayed header has an excluded name; a header is relayed iff upstream sent it and its name is not excluded |
| `HeaderList.RelayedAppend` | cors-proxy.py:65-67 | the filter works header by header: filtering `a + b` is filtering `a` then `b`, so kept headers keep their order |
| `HeaderList.RelayedIdempotent` | cors-proxy.py:65-67 | filtering twice is filtering once |
| `HeaderList.RelayedUnchanged` | cors-proxy.py:65-67 | the filter leaves a list unchanged iff it holds no excluded name |
| `HeaderList.RelayedMultiplicity` | cors-proxy.py:65-67 | each kept header (name and value) appears as often as upstream sent it; each excluded one never appears |
| `HeaderList.RelayedDropsExcluded` | cors-proxy.py:65-67 | no header with an excluded name survives, in any case |
| `HeaderList.RelayedKeepsOthers` | cors-proxy.py:65-67 | headers of any other name keep their number of occurrences |
| `HeaderList.RelayHeaders` | cors-proxy.py:65-67 | the `for` loop that appends each non-excluded header computes exactly the filtered list |
| `HeaderList.Excluded` | cors-proxy.py:66 | a name is excluded iff it equals `Server`, `Date` or `Connection` up to case |
| `HeaderList.ExcludedAnyCase` | cors-proxy.py:66 | a name is excluded iff it spells `server`, `date` or `connection` in any mixture of capitals |
| `HeaderList.ExcludedRespectsSameName` | cors-proxy.py:66 | names that are equal up to case are excluded together |
| `Text.ToLower` | cors-proxy.py:66 | `str.lower` keeps the length and leaves no capital behind; header names are compared through it here and in `get` |
| `Text.ToLowerIdempotent` | cors-proxy.py:66 | lower-casing a lower-cased name changes nothing |
| `Text.ToLowerIsCaseVariant` | cors-proxy.py:66 | for a target with no capitals, `s.lower() == b` iff `s` spells `b` with some letters capitalised |
| `Text.DecodeEncode` | cors-proxy.py:83 | `str(e).encode()` loses nothing: its bytes decode back to the text |
| `Text.EncodeDecode` | cors-proxy.py:83 | well-formed UTF-8 is the encoding of what it decodes to, so the encoding is the unique one |
| `Text.EncodeAscii` | cors-proxy.py:83 | an ASCII message encodes one byte per character, each byte equal to the code point |
| `Text.EncodeAppend` | cors-proxy.py:83 | encoding distributes over concatenation |
| `Text.Encode` | cors-proxy.py:83 | the encoding of `s` takes between `|s|` and `4|s|` bytes |
| `PyInt.LeadingSpaces` | cors-proxy.py:45 | the count is the length of the longest all-whitespace prefix |
| `PyInt.TrailingSpaces` | cors-proxy.py:45 | the count is the length of the longest all-whitespace suffix |
| `PyInt.Strip` | cors-proxy.py:45 | the stripped text is the infix left after the leading whitespace, is empty or bounded by non-whitespace, and only whitespace follows it |
| `PyInt.StripUnique` | cors-proxy.py:45 | any split of `s` into whitespace, `t` and whitespace, with `t` bounded by non-whitespace, has `t == strip(s)` |
| `PyInt.ParseFormat` | cors-proxy.py:45 | `int(str(n)) == n` for every integer |
| `PyInt.ParseIgnoresPadding` | cors-proxy.py:45 | whitespace added at either end never changes what `int()` returns |
| `PyInt.ParseInt` | cors-proxy.py:45 | only a value holding a digit parses, so the empty string and a bare sign are rejected; a negative result needs a minus sign in the value |
| `PyInt.ParseRejectsForeignStart` | cors-proxy.py:45 | a value starting with a character that is not `int()` whitespace, a sign or a digit is rejected, e.g. one starting with U+001C |
| `PyRepr.Repr` | cors-proxy.py:79-83 | `repr` is at least two characters longer than its argument and opens and closes with the chosen quote |
| `PyRepr.QuoteFor` | cors-proxy.py:79-83 | `repr` uses a single or double quote, and only a quote that is in the text when both kinds are |
| `PyRepr.UnreprRepr` | cors-proxy.py:79-83 | `repr` can be read back to its argument, so different values give different messages |
| `PyInt.ValueErrorMessage` | cors-proxy.py:79-83 | the message starts with the fixed `invalid literal for int() with base 10: ` prefix and holds at most 200 characters after it |
| `PyInt.MessageKeepsShortValue` | cors-proxy.py:79-83 | when the `repr` fits in 200 characters, the rejected value can be read back from the message |
| `PyRepr.ReprOfPlain` | cors-proxy.py:79-83 | a printable value without quotes or backslashes appears verbatim between single quotes |

## Left out

- The server lifecycle: `HTTPServer`, `serve_forever`, the startup banner and
  Ctrl+C shutdown (cors-proxy.py:99-122). These are process I/O. So is the
  listen port, `PROXY_PORT`.
- Access logging through `log_message` (cors-proxy.py:94-96) and the log line
  `send_response` writes. Their output is stdout text with timestamps.
- The network: DNS, connecting, timeouts and redirect following inside
  `urlopen`. The upstream is an arbitrary function, so the model never
  promises which outcome a given request gets. It also does not encode that
  `urlopen` only returns 2xx responses and raises `HTTPError` for other statuses.
- What `urllib` and `http.client` add or change on their own. They add headers
  such as `Host`, `User-Agent`, `Accept-Encoding: identity` and
  `Connection: close`, and `Content-Length` when data is attached. They write header names as
  `Content-type`. It drops a `#fragment` from the URL. It adds a default form
  `Content-Type` when an empty body is attached. `Outbound` is the request the
  handler asks for, before that library processing.
- Commands without a `do_` method (for example `HEAD`). The server base class
  answers them with 501. `Handle` returns `None` for them. A malformed or
  over-long request line is likewise answered by the base class (400 or 414)
  before the handler runs, without CORS headers.
- HTTP/0.9 requests, which get a response without any header lines. The status
  line, reason phrases and the ISO-8859-1 encoding of header lines on the
  wire are not modelled either.
- An exception raised after the response headers went out. On the success path
  that is `response.read()` or a write (cors-proxy.py:61-72); it would produce
  a second status line from the generic branch. On the `HTTPError` path it is
  `e.read()` (cors-proxy.py:75-78); inside the `except` clause it escapes the
  handler and leaves a response with headers but no body. Both are transport
  edge cases with no stated behaviour.
- The reduction of a `self.path` that starts with `//` to a single `/`. The
  server base class does this before the handler runs. `Request.path` is the
  path after that reduction.
- CorsProxy.ReadBody: does not model a `MemoryError` from `read(n)`. For a
  size below 2^63 that is larger than the memory available, `read` fails while
  allocating its buffer. That depends on the host, not on the request. Nor
  does it model the `OverflowError` ("byte string is too large") that
  allocating the result raises on every host for a size within a few dozen
  bytes of 2^63 - 1; the model reads such a size like any other.
- A client that declares more bytes than it sends and keeps its connection
  open. `rfile.read(n)` then blocks with no timeout, and since the server
  handles one request at a time the whole proxy stops answering. `Proxy` is
  total and models only a client that closes its side (`Request.input` is
  everything it sent).
- CorsProxy.Proxy: for the same reason as `ReadBody`, a request the model builds may in
  fact end in the 500 branch with a `MemoryError`.
- CorsProxy.ForwardedRequest: "sent iff the length parses to at most 2^63 - 1"
  holds only when the host can allocate the declared size.
- CorsProxy.BodyFollowsLength: likewise holds only when the host can allocate
  the declared size.
- CorsProxy.ContentTypeWithBody: likewise holds only when the host can allocate
  the declared size.
- Characters above U+00FF. Header text decoded as ISO-8859-1 cannot contain
  them. For them `ToLower`, `IsIntSpace` and `IsPrintable` treat the character as
  unchanged, not `int()` whitespace and printable, whereas CPython uses the full Unicode tables.
- CPython 3.11+'s limit of 4300 digits on `int()` of a string. Longer values
  raise a `ValueError` with another message, but `PyInt.ParseInt` accepts
  literals of any length.

=== FILE: headers.dfy ===
/** Header lists as the proxy handles them: ordered name/value pairs in which a
    name may repeat and names compare without regard to case. */
module HeaderList {
  import opened Options
  import opened Text

  type Header = (string, string)

  type Headers = seq<Header>

  /** Header names are compared lower-cased, as `email.message.Message` does. */
  predicate SameName(a: string, b: string) {
    ToLower(a) == ToLower(b)
  }

  /** Index of the first header called `name`, or `|hs|` when there is none. */
  function FindName(hs: Headers, name: string): (i: nat)
    ensures i <= |hs|
    ensures forall j :: 0 <= j < i ==> !SameName(hs[j].0, name)
    ensures i < |hs| ==> SameName(hs[i].0, name)
  {
    if hs == [] then 0
    else if SameName(hs[0].0, name) then 0
    else 1 + FindName(hs[1..], name)
  }

  /** `headers.get(name)` on the inbound request: the value of the first header
      called `name` in any case, or `None`. */
  function Lookup(hs: Headers, name: string): (r: Option<string>)
    ensures r.None? ==> forall j :: 0 <= j < |hs| ==> !SameName(hs[j].0, name)
    ensures r.Some? ==> exists j :: 0 <= j < |hs| && SameName(hs[j].0, name) && hs[j].1 == r.value
  {
    var i := FindName(hs, name);
    if i < |hs| then Some(hs[i].1) else None
  }

  /** `Lookup` finds a value exactly when some header has the name, and then
      it is the value of the first such header. */
  lemma LookupFindsFirst(hs: Headers, name: string)
    ensures Lookup(hs, name).None? <==> forall j :: 0 <= j < |hs| ==> !SameName(hs[j].0, name)
    ensures Lookup(hs, name).Some? ==>
              exists i :: 0 <= i < |hs| && SameName(hs[i].0, name) && hs[i].1 == Lookup(hs, name).value
                          && forall j :: 0 <= j < i ==> !SameName(hs[j].0, name)
  {
  }

  /** Headers of other names in front of the first match, and anything after
      it, do not change what `get` finds. */
  lemma {:induction false} LookupFirstOf(before: Headers, h: Header, after: Headers, name: string)
    requires SameName(h.0, name)
    requires forall j :: 0 <= j < |before| ==> !SameName(before[j].0, name)
    ensures Lookup(before + [h] + after, name) == Some(h.1)
  {
    var hs := before + [h] + after;
    if before == [] {
      assert hs[0] == h;
    } else {
      var rest := before[1..] + [h] + after;
      assert hs[1..] == rest;
      assert hs[0] == before[0];
      LookupFirstOf(before[1..], h, after, name);
      assert hs[1 + FindName(rest, name)] == rest[FindName(rest, name)];
    }
  }

  /** How many headers are called `name`, in any case. */
  function Count(hs: Headers, name: string): nat {
    if hs == [] then 0
    else (if SameName(hs[0].0, name) then 1 else 0) + Count(hs[1..], name)
  }

  lemma {:induction false} CountAppend(a: Headers, b: Headers, name: string)
    ensures Count(a + b, name) == Count(a, name) + Count(b, name)
  {
    if a == [] {
      assert a + b == b;
    } else {
      assert (a + b)[1..] == a[1..] + b;
      CountAppend(a[1..], b, name);
    }
  }

  /** Names of different lengths never match, so a list whose names all differ
      in length from `name` holds no header of that name. */
  lemma {:induction false} CountOtherLengths(hs: Headers, name: string)
    requires forall i :: 0 <= i < |hs| ==> |hs[i].0| != |name|
    ensures Count(hs, name) == 0
  {
    if hs != [] {
      assert |ToLower(hs[0].0)| != |ToLower(name)|;
      CountOtherLengths(hs[1..], name);
    }
  }

  // ---------------------------------------------------------------- the exclusion set

  /** Lower-cased names of the upstream headers the proxy never relays: it
      sends its own `Server` and `Date`, and manages its own connection. */
  const ExcludedNames: seq<string> := ["server", "date", "connection"]

  /** `key.lower() in ['server', 'date', 'connection']`: the header is one of
      `Server`, `Date` and `Connection`, whatever its capitals. */
  function Excluded(name: string): (b: bool)
    ensures b <==> SameName(name, "Server") || SameName(name, "Date") || SameName(name, "Connection")
  {
    assert ToLower("Server") == "server";
    assert ToLower("Date") == "date";
    assert ToLower("Connection") == "connection";
    ToLower(name) in ExcludedNames
  }

  /** A name is excluded exactly when it is `server`, `date` or `connection`
      written in any mixture of capitals and small letters. */
  lemma ExcludedAnyCase(name: string)
    ensures Excluded(name) <==>
              CaseVariantOf(name, "server") || CaseVariantOf(name, "date") || CaseVariantOf(name, "connection")
  {
    ToLowerIsCaseVariant(name, "server");
    ToLowerIsCaseVariant(name, "date");
    ToLowerIsCaseVariant(name, "connection");
  }

  lemma ListedNamesExcluded(name: string)
    requires name in ExcludedNames
    ensures Excluded(name)
  {
    assert name == "server" || name == "date" || name == "connection";
    assert ToLower(name) == name;
  }

  /** Names that are the same up to case are excluded together. */
  lemma ExcludedRespectsSameName(a: string, b: string)
    requires SameName(a, b)
    ensures Excluded(a) <==> Excluded(b)
  {
  }

  // ---------------------------------------------------------------- the filter

  /** The upstream headers the proxy relays: every header whose name is not
      excluded, in the original order, values and repetitions untouched. */
  function Relayed(hs: Headers): (r: Headers)
    ensures |r| <= |hs|
    ensures forall i :: 0 <= i < |r| ==> !Excluded(r[i].0)
    ensures forall h :: h in r <==> h in hs && !Excluded(h.0)
  {
    if hs == [] then []
    else (if Excluded(hs[0].0) then [] else [hs[0]]) + Relayed(hs[1..])
  }

  /** The filter works header by header: relaying a concatenation relays each
      part, so the kept headers keep their relative order. */
  lemma {:induction false} RelayedAppend(a: Headers, b: Headers)
    ensures Relayed(a + b) == Relayed(a) + Relayed(b)
  {
    if a == [] {
      assert a + b == b;
    } else {
      assert (a + b)[1..] == a[1..] + b;
      assert (a + b)[0] == a[0];
      RelayedAppend(a[1..], b);
    }
  }

  /** Filtering twice is filtering once. */
  lemma {:induction false} RelayedIdempotent(hs: Headers)
    ensures Relayed(Relayed(hs)) == Relayed(hs)
  {
    RelayedUnchanged(Relayed(hs));
  }

  /** The filter changes a list exactly when the list holds an excluded name. */
  lemma {:induction false} RelayedUnchanged(hs: Headers)
    ensures Relayed(hs) == hs <==> forall i :: 0 <= i < |hs| ==> !Excluded(hs[i].0)
  {
    if hs != [] {
      RelayedUnchanged(hs[1..]);
      if forall i :: 0 <= i < |hs| ==> !Excluded(hs[i].0) {
        assert forall i :: 0 <= i < |hs[1..]| ==> !Excluded(hs[1..][i].0) by {
          forall i | 0 <= i < |hs[1..]|
            ensures !Excluded(hs[1..][i].0)
          {
            assert hs[1..][i] == hs[i + 1];
          }
        }
        assert [hs[0]] + hs[1..] == hs;
      }
    }
  }

  /** Every header that is kept appears as often as upstream sent it; every
      excluded one not at all. */
  lemma {:induction false} RelayedMultiplicity(hs: Headers, h: Header)
    ensures multiset(Relayed(hs))[h] == if Excluded(h.0) then 0 else multiset(hs)[h]
  {
    if hs != [] {
      RelayedMultiplicity(hs[1..], h);
      assert hs == [hs[0]] + hs[1..];
      assert multiset(hs) == multiset([hs[0]]) + multiset(hs[1..]);
      var head := if Excluded(hs[0].0) then [] else [hs[0]];
      assert multiset(Relayed(hs)) == multiset(head) + multiset(Relayed(hs[1..]));
    }
  }

  /** No header called by an excluded name survives, in any case. */
  lemma {:induction false} RelayedDropsExcluded(hs: Headers, name: string)
    requires Excluded(name)
    ensures Count(Relayed(hs), name) == 0
  {
    if hs != [] {
      RelayedDropsExcluded(hs[1..], name);
      var head := if Excluded(hs[0].0) then [] else [hs[0]];
      CountAppend(head, Relayed(hs[1..]), name);
    }
  }

  /** Headers of any other name keep their number of occurrences. */
  lemma {:induction false} RelayedKeepsOthers(hs: Headers, name: string)
    requires !Excluded(name)
    ensures Count(Relayed(hs), name) == Count(hs, name)
  {
    if hs != [] {
      RelayedKeepsOthers(hs[1..], name);
      var head := if Excluded(hs[0].0) then [] else [hs[0]];
      CountAppend(head, Relayed(hs[1..]), name);
    }
  }

  /** The `for key, value in response.headers.items()` loop: append each header
      whose name is not excluded, in order. */
  method RelayHeaders(hs: Headers) returns (out: Headers)
    ensures out == Relayed(hs)
  {
    out := [];
    var i := 0;
    while i < |hs|
      invariant 0 <= i <= |hs|
      invariant out == Relayed(hs[..i])
    {
      var (key, value) := hs[i];
      assert hs[..i + 1] == hs[..i] + [hs[i]];
      RelayedAppend(hs[..i], [hs[i]]);
      if !Excluded(key) {
        out := out + [(key, value)];
      }
      i := i + 1;
    }
    assert hs[..|hs|] == hs;
  }
}

=== FILE: options.dfy ===
/** Optional values, shared by the other modules of the proxy model. */
module Options {

  /** Either a value (`Some`) or its absence (`None`), the model's counterpart of Python's `None`. */
  datatype Option<+T> = None | Some(value: T) {

    /** The value held, or `default` when there is none (Python's `d.get(key, default)`). */
    function GetOr(default: T): T {
      match this
      case Some(v) => v
      case None => default
    }
  }
}

=== FILE: proxy.dfy ===
/** The per-request decisions of `CORSProxyHandler`: which command is served,
    the outbound request built from an inbound one, and the response built
    from what the upstream answered.

    The upstream is a parameter: a function from the outbound request to its
    outcome, standing for `urllib.request.Request(...)` followed by
    `urlopen`. The model therefore says nothing about the network, and
    "no request is sent" is visible as `sent == None`. */
module CorsProxy {
  import opened Options
  import opened Text
  import opened HeaderList
  import PyInt
  import PyRepr

  // ---------------------------------------------------------------- configuration

  /** The fixed base URL every forwarded path is appended to. */
  datatype Config = Config(base: string)

  /** `KUBECTL_PROXY`. */
  const KubectlProxy: Config := Config("http://localhost:8001")

  /** The four headers `send_cors_headers` writes, in the order it writes them. */
  const CorsHeaders: Headers := [
    ("Access-Control-Allow-Origin", "*"),
    ("Access-Control-Allow-Methods", "GET, POST, PUT, DELETE, PATCH, OPTIONS"),
    ("Access-Control-Allow-Headers", "Content-Type, Authorization"),
    ("Access-Control-Max-Age", "86400")
  ]

  const DefaultContentType: string := "application/json"

  // ---------------------------------------------------------------- commands

  /** The commands the handler defines a `do_<command>` method for. */
  datatype Verb = GET | POST | PUT | DELETE | PATCH | OPTIONS

  function Name(v: Verb): string {
    match v
    case GET => "GET"
    case POST => "POST"
    case PUT => "PUT"
    case DELETE => "DELETE"
    case PATCH => "PATCH"
    case OPTIONS => "OPTIONS"
  }

  /** The `do_` method the request-line command selects; the lookup is
      case-sensitive, so `get` selects none. */
  function VerbOf(command: string): (v: Option<Verb>)
    ensures v.Some? ==> Name(v.value) == command
  {
    if command == "GET" then Some(GET)
    else if command == "POST" then Some(POST)
    else if command == "PUT" then Some(PUT)
    else if command == "DELETE" then Some(DELETE)
    else if command == "PATCH" then Some(PATCH)
    else if command == "OPTIONS" then Some(OPTIONS)
    else None
  }

  /** Every verb is selected by its own name, so `VerbOf` and `Name` are inverse. */
  lemma VerbOfName(v: Verb)
    ensures VerbOf(Name(v)) == Some(v)
  {
  }

  // ---------------------------------------------------------------- requests and responses

  /** What the handler sees of an inbound request: `self.command`,
      `self.path` (the request target with its query, after the server base
      class has reduced a leading run of slashes to one), the parsed headers,
      and the bytes the client sends after them before closing its side. */
  datatype Request = Request(command: string, path: string, headers: Headers, input: Bytes)

  /** The `urllib.request.Request` the handler builds; `data == None` means no body;
      `command` is its HTTP method. */
  datatype Outbound = Outbound(url: string, data: Option<Bytes>, headers: Headers, command: string)

  /** What `urlopen` did: returned a response, raised `HTTPError` (which carries
      a status and a body), or raised anything else. */
  datatype Upstream =
    | Ok(status: int, headers: Headers, body: Bytes)
    | HttpError(code: int, body: Bytes)
    | Failure(message: string)

  /** The response the handler writes: the status passed to `send_response`,
      the headers it sends itself, in order, and the bytes written to `wfile`. */
  datatype Response = Response(status: int, headers: Headers, body: Bytes)

  /** One handled request: the outbound request, if one was built and handed
      to `urlopen`, and the response. */
  datatype Exchange = Exchange(sent: Option<Outbound>, response: Response)

  // ---------------------------------------------------------------- the outbound request

  /** `int(self.headers.get('Content-Length', 0))`: a missing header counts as 0. */
  datatype Length = Length(n: int) | BadLength(message: string)

  function DeclaredLength(hs: Headers): (r: Length)
    ensures (forall j :: 0 <= j < |hs| ==> !SameName(hs[j].0, "Content-Length")) ==> r == Length(0)
    ensures r.Length? && r.n != 0 ==> exists j :: 0 <= j < |hs| && SameName(hs[j].0, "Content-Length")
    ensures r.BadLength? ==>
              exists j :: 0 <= j < |hs| && SameName(hs[j].0, "Content-Length")
                          && PyInt.ParseInt(hs[j].1).None? && r.message == PyInt.ValueErrorMessage(hs[j].1)
  {
    LookupFindsFirst(hs, "Content-Length");
    match Lookup(hs, "Content-Length")
    case None => Length(0)
    case Some(v) =>
      match PyInt.ParseInt(v)
      case Some(n) => Length(n)
      case None => BadLength(PyInt.ValueErrorMessage(v))
  }

  /** The largest size `rfile.read` accepts: it converts its argument to a C
      `Py_ssize_t`, 64 bits wide on the platforms the proxy targets. */
  const MaxReadSize: int := 0x7FFF_FFFF_FFFF_FFFF

  /** The text of the `OverflowError` that conversion raises for a larger size. */
  const ReadOverflowMessage: string := "cannot fit 'int' into an index-sized integer"

  /** What `self.rfile.read(n) if n > 0 else None` yields: the body, absent
      when `n` is not positive, or the text of the exception `read` raises. */
  datatype BodyRead = Body(data: Option<Bytes>) | ReadFailed(message: string)

  /** Reading the body: at most `n` bytes, fewer when the client sends fewer
      before closing; a size beyond `MaxReadSize` raises instead. */
  function ReadBody(input: Bytes, n: int): (r: BodyRead)
    ensures r.ReadFailed? <==> n > MaxReadSize
    ensures r.ReadFailed? ==> r.message == ReadOverflowMessage
    ensures r.Body? ==> (r.data.Some? <==> n > 0)
    ensures r.Body? && r.data.Some? ==> |r.data.value| <= n && r.data.value <= input
    ensures r.Body? && n > 0 && |input| >= n ==> r.data == Some(input[..n])
    ensures r.Body? && n > 0 && |input| < n ==> r.data == Some(input)
  {
    if n <= 0 then Body(None)
    else if n > MaxReadSize then ReadFailed(ReadOverflowMessage)
    else if n <= |input| then Body(Some(input[..n]))
    else Body(Some(input))
  }

  /** The outbound headers: a `Content-Type` only when the body read is
      non-empty (Python's `if body:`), copied from the first inbound one in
      any case or defaulted to `application/json`; nothing else is forwarded. */
  function OutboundHeaders(inbound: Headers, body: Option<Bytes>): (hs: Headers)
    ensures |hs| <= 1
    ensures hs != [] <==> body.Some? && body.value != []
    ensures hs != [] ==> hs[0].0 == "Content-Type"
    ensures hs != [] && Lookup(inbound, "Content-Type").Some? ==> hs[0].1 == Lookup(inbound, "Content-Type").value
    ensures hs != [] && (forall j :: 0 <= j < |inbound| ==> !SameName(inbound[j].0, "Content-Type")) ==>
              hs[0].1 == DefaultContentType
  {
    LookupFindsFirst(inbound, "Content-Type");
    if body.Some? && |body.value| > 0 then
      [("Content-Type", Lookup(inbound, "Content-Type").GetOr(DefaultContentType))]
    else []
  }

  function BuildOutbound(cfg: Config, req: Request, data: Option<Bytes>): (out: Outbound)
    ensures out.url == cfg.base + req.path
    ensures out.command == req.command
    ensures out.data == data
  {
    Outbound(cfg.base + req.path, data, OutboundHeaders(req.headers, data), req.command)
  }

  // ---------------------------------------------------------------- the response

  /** `do_OPTIONS`: status 200, the CORS headers and no body. */
  const PreflightResponse: Response := Response(200, CorsHeaders, [])

  /** The three `proxy_request` branches, each starting with `send_cors_headers`. */
  function Respond(u: Upstream): (r: Response)
    ensures |r.headers| >= 4 && r.headers[..4] == CorsHeaders
  {
    match u
    case Ok(status, headers, body) => Response(status, CorsHeaders + Relayed(headers), body)
    case HttpError(code, body) => Response(code, CorsHeaders, body)
    case Failure(message) => Response(500, CorsHeaders, Encode(message))
  }

  /** A request gets built: `Content-Length` is missing, or parses to a size
      `rfile.read` accepts. */
  predicate Sendable(hs: Headers) {
    DeclaredLength(hs).Length? && DeclaredLength(hs).n <= MaxReadSize
  }

  /** `proxy_request`: a `Content-Length` that does not parse, or a size the
      read rejects, ends in the generic 500 branch before any request is
      built; otherwise one request is built, sent, and its outcome answered. */
  function Proxy(cfg: Config, req: Request, upstream: Outbound -> Upstream): (x: Exchange)
    ensures x.sent.Some? <==> Sendable(req.headers)
    ensures x.sent.Some? ==> x.response == Respond(upstream(x.sent.value))
    ensures x.sent.None? ==> x.response.status == 500 && x.response.headers == CorsHeaders
  {
    match DeclaredLength(req.headers)
    case BadLength(message) => Exchange(None, Respond(Failure(message)))
    case Length(n) =>
      match ReadBody(req.input, n)
      case ReadFailed(message) => Exchange(None, Respond(Failure(message)))
      case Body(data) =>
        var out := BuildOutbound(cfg, req, data);
        Exchange(Some(out), Respond(upstream(out)))
  }

  /** The handler as a whole: `None` when the command has no `do_` method
      (the server base class answers those), the preflight for `OPTIONS`, and
      `proxy_request` for the other five commands. */
  function Handle(cfg: Config, req: Request, upstream: Outbound -> Upstream): (r: Option<Exchange>)
    ensures r.Some? <==> VerbOf(req.command).Some?
    ensures r.Some? ==> |r.value.response.headers| >= 4 && r.value.response.headers[..4] == CorsHeaders
    ensures r.Some? && r.value.sent.Some? ==>
              && r.value.sent.value.command == req.command
              && r.value.sent.value.url == cfg.base + req.path
              && req.command != "OPTIONS"
  {
    match VerbOf(req.command)
    case None => None
    case Some(OPTIONS) => Some(Exchange(None, PreflightResponse))
    case Some(_) => Some(Proxy(cfg, req, upstream))
  }

  // ---------------------------------------------------------------- the wire

  /** What `send_response` adds before the handler's own headers: the server's
      version string and the current date, both supplied from outside. */
  datatype Env = Env(serverVersion: string, date: string)

  /** The header lines of the response as they go out: one `Server` and one
      `Date` line more than the handler wrote, then the handler's own lines. */
  function OnWire(env: Env, r: Response): (hs: Headers)
    ensures |hs| == |r.headers| + 2 && hs[2..] == r.headers
    ensures Count(hs, "server") == Count(r.headers, "server") + 1
    ensures Count(hs, "date") == Count(r.headers, "date") + 1
    ensures Count(hs, "connection") == Count(r.headers, "connection")
  {
    var prelude: Headers := [("Server", env.serverVersion), ("Date", env.date)];
    PreludeCounts(env);
    CountAppend(prelude, r.headers, "server");
    CountAppend(prelude, r.headers, "date");
    CountAppend(prelude, r.headers, "connection");
    prelude + r.headers
  }

  // ---------------------------------------------------------------- properties

  /** The five commands `proxy_request` serves. */
  predicate Forwards(command: string) {
    VerbOf(command).Some? && VerbOf(command).value != OPTIONS
  }

  lemma HandleForwards(cfg: Config, req: Request, upstream: Outbound -> Upstream)
    requires Forwards(req.command)
    ensures Handle(cfg, req, upstream) == Some(Proxy(cfg, req, upstream))
  {
  }

  /** As configured, every request the proxy sends goes to `kubectl proxy` on
      port 8001 of the local host, with the inbound path appended verbatim. */
  lemma SendsToKubectl(req: Request, upstream: Outbound -> Upstream)
    requires Handle(KubectlProxy, req, upstream).Some?
    requires Handle(KubectlProxy, req, upstream).value.sent.Some?
    ensures Handle(KubectlProxy, req, upstream).value.sent.value.url == "http://localhost:8001" + req.path
  {
  }

  /** A preflight never reaches the upstream and its answer depends on nothing
      but the command: 200, exactly the CORS headers, an empty body. */
  lemma PreflightIsLocal(cfg: Config, req: Request, upstream: Outbound -> Upstream)
    requires req.command == "OPTIONS"
    ensures Handle(cfg, req, upstream) == Some(Exchange(None, Response(200, CorsHeaders, [])))
  {
  }

  /** The response depends on the upstream only through its answer to the one
      request sent: two upstreams that agree on it give the same exchange. */
  lemma OnlySentRequestMatters(cfg: Config, req: Request, u1: Outbound -> Upstream, u2: Outbound -> Upstream)
    requires Handle(cfg, req, u1).Some?
    requires Handle(cfg, req, u1).value.sent.Some? ==>
               u1(Handle(cfg, req, u1).value.sent.value) == u2(Handle(cfg, req, u1).value.sent.value)
    ensures Handle(cfg, req, u1) == Handle(cfg, req, u2)
  {
  }

  /** For the five forwarding commands a request is sent exactly when
      `Content-Length` is missing or parses to a size the read accepts; it
      then keeps the method and appends the path, untouched, to the base URL. */
  lemma ForwardedRequest(cfg: Config, req: Request, upstream: Outbound -> Upstream)
    requires Forwards(req.command)
    ensures var x := Handle(cfg, req, upstream).value;
            && (x.sent.Some? <==> DeclaredLength(req.headers).Length? && DeclaredLength(req.headers).n <= MaxReadSize)
            && (x.sent.Some? ==> x.sent.value.command == req.command && x.sent.value.url == cfg.base + req.path)
  {
    HandleForwards(cfg, req, upstream);
  }

  /** A body is attached exactly when the declared length is positive; when
      the client sent at least that many bytes it is exactly those bytes, and
      when it sent fewer it is all of them. */
  lemma BodyFollowsLength(cfg: Config, req: Request, upstream: Outbound -> Upstream, n: int)
    requires Forwards(req.command)
    requires DeclaredLength(req.headers) == Length(n)
    ensures var x := Handle(cfg, req, upstream).value;
            && (x.sent.Some? <==> n <= MaxReadSize)
            && (x.sent.Some? ==>
                  && (x.sent.value.data.Some? <==> n > 0)
                  && (n > 0 && |req.input| >= n ==> x.sent.value.data == Some(req.input[..n]))
                  && (n > 0 && |req.input| < n ==> x.sent.value.data == Some(req.input)))
  {
    HandleForwards(cfg, req, upstream);
    if n <= MaxReadSize {
      assert Handle(cfg, req, upstream).value.sent.value == BuildOutbound(cfg, req, ReadBody(req.input, n).data);
    }
  }

  /** A declared size beyond what `rfile.read` accepts sends nothing and
      answers 500 with the `OverflowError` text as body. */
  lemma LengthTooLargeIs500(cfg: Config, req: Request, upstream: Outbound -> Upstream, n: int)
    requires Forwards(req.command)
    requires DeclaredLength(req.headers) == Length(n) && n > MaxReadSize
    ensures Handle(cfg, req, upstream) == Some(Exchange(None, Response(500, CorsHeaders, Encode(ReadOverflowMessage))))
  {
    ReadRejectedBeforeSending(cfg, req, upstream, n);
    FailureResponse(ReadOverflowMessage);
  }

  lemma ReadRejectedBeforeSending(cfg: Config, req: Request, upstream: Outbound -> Upstream, n: int)
    requires Forwards(req.command)
    requires DeclaredLength(req.headers) == Length(n) && n > MaxReadSize
    ensures Handle(cfg, req, upstream) == Some(Exchange(None, Respond(Failure(ReadOverflowMessage))))
  {
    HandleForwards(cfg, req, upstream);
    assert ReadBody(req.input, n) == ReadFailed(ReadOverflowMessage);
  }

  lemma FailureResponse(m: string)
    ensures Respond(Failure(m)) == Response(500, CorsHeaders, Encode(m))
  {
  }

  /** Without a `Content-Length` header there is neither a body nor an outbound header. */
  lemma NoLengthNoBody(cfg: Config, req: Request, upstream: Outbound -> Upstream)
    requires Forwards(req.command)
    requires forall i :: 0 <= i < |req.headers| ==> !SameName(req.headers[i].0, "Content-Length")
    ensures var x := Handle(cfg, req, upstream).value;
            && x.sent.Some?
            && x.sent.value.data == None
            && x.sent.value.headers == []
  {
    HandleForwards(cfg, req, upstream);
    assert DeclaredLength(req.headers) == Length(0);
    assert Handle(cfg, req, upstream).value.sent.value == BuildOutbound(cfg, req, None);
  }

  /** A length of zero or below attaches no body and no header. */
  lemma NonPositiveLengthNoBody(cfg: Config, req: Request, upstream: Outbound -> Upstream, n: int)
    requires Forwards(req.command)
    requires DeclaredLength(req.headers) == Length(n) && n <= 0
    ensures var x := Handle(cfg, req, upstream).value;
            x.sent.Some? && x.sent.value.data == None && x.sent.value.headers == []
  {
    HandleForwards(cfg, req, upstream);
    assert Handle(cfg, req, upstream).value.sent.value == BuildOutbound(cfg, req, None);
  }

  /** With a body the outbound headers are the single `Content-Type` entry,
      taken from the inbound request when it has one, else `application/json`;
      nothing else of the inbound headers is forwarded. */
  lemma ContentTypeWithBody(cfg: Config, req: Request, upstream: Outbound -> Upstream, n: int)
    requires Forwards(req.command)
    requires DeclaredLength(req.headers) == Length(n) && n > 0 && |req.input| >= n
    ensures var x := Handle(cfg, req, upstream).value;
            && (x.sent.Some? <==> n <= MaxReadSize)
            && (x.sent.Some? ==>
                  var out := x.sent.value;
                  && |out.headers| == 1
                  && out.headers[0].0 == "Content-Type"
                  && (Lookup(req.headers, "Content-Type").Some? ==> out.headers[0].1 == Lookup(req.headers, "Content-Type").value)
                  && (Lookup(req.headers, "Content-Type").None? ==> out.headers[0].1 == "application/json"))
  {
    HandleForwards(cfg, req, upstream);
    if n <= MaxReadSize {
      assert Handle(cfg, req, upstream).value.sent.value == BuildOutbound(cfg, req, Some(req.input[..n]));
    }
  }

  /** The outbound request carries a header only when it carries a non-empty
      body. A client that declares a length but sends nothing gets an empty
      body attached and no `Content-Type`. */
  lemma HeaderOnlyWithBody(cfg: Config, req: Request, upstream: Outbound -> Upstream)
    requires Forwards(req.command)
    requires DeclaredLength(req.headers).Length?
    ensures var x := Handle(cfg, req, upstream).value;
            x.sent.Some? ==>
              && (x.sent.value.headers != [] <==> x.sent.value.data.Some? && x.sent.value.data.value != [])
              && (DeclaredLength(req.headers).n > 0 && req.input == [] ==> x.sent.value.data == Some([]) && x.sent.value.headers == [])
  {
    HandleForwards(cfg, req, upstream);
    var n := DeclaredLength(req.headers).n;
    if n <= MaxReadSize {
      assert Handle(cfg, req, upstream).value.sent.value == BuildOutbound(cfg, req, ReadBody(req.input, n).data);
    }
  }

  /** Only the first `Content-Length` header, in any case, decides the declared
      length: headers of other names before it and anything after it, a second
      `Content-Length` included, make no difference. */
  lemma DeclaredLengthFromFirst(before: Headers, h: Header, after: Headers)
    requires SameName(h.0, "Content-Length")
    requires forall j :: 0 <= j < |before| ==> !SameName(before[j].0, "Content-Length")
    ensures DeclaredLength(before + [h] + after) == DeclaredLength([h])
  {
    LookupFirstOf(before, h, after, "Content-Length");
    LookupFirstOf([], h, [], "Content-Length");
    assert [] + [h] + [] == [h];
  }

  /** A `Content-Length` written the way Python prints `n`, with any
      whitespace before and after it (the two need not match; the header
      parser keeps trailing whitespace), declares exactly `n`. */
  lemma DeclaredLengthOfFormatted(hs: Headers, pre: string, n: int, post: string)
    requires PyInt.AllSpace(pre) && PyInt.AllSpace(post)
    requires Lookup(hs, "Content-Length") == Some(pre + PyInt.FormatInt(n) + post)
    ensures DeclaredLength(hs) == Length(n)
  {
    PyInt.ParseIgnoresPadding(pre, PyInt.FormatInt(n), post);
    PyInt.ParseFormat(n);
  }

  /** A `Content-Length` that `int()` rejects sends nothing and answers 500
      with the `ValueError` text as body. */
  lemma BadLengthIs500(cfg: Config, req: Request, upstream: Outbound -> Upstream)
    requires Forwards(req.command)
    requires DeclaredLength(req.headers).BadLength?
    ensures Handle(cfg, req, upstream) ==
              Some(Exchange(None, Response(500, CorsHeaders, Encode(DeclaredLength(req.headers).message))))
  {
    HandleForwards(cfg, req, upstream);
    var m := DeclaredLength(req.headers).message;
    assert Handle(cfg, req, upstream) == Some(Exchange(None, Respond(Failure(m))));
    assert Respond(Failure(m)) == Response(500, CorsHeaders, Encode(m));
  }

  /** Success: status and body verbatim; the CORS headers, then the upstream
      headers the filter keeps. */
  lemma SuccessRelayed(cfg: Config, req: Request, upstream: Outbound -> Upstream, out: Outbound,
                       status: int, headers: Headers, body: Bytes)
    requires Handle(cfg, req, upstream).Some?
    requires Handle(cfg, req, upstream).value.sent == Some(out)
    requires upstream(out) == Ok(status, headers, body)
    ensures var r := Handle(cfg, req, upstream).value.response;
            && r.status == status
            && r.body == body
            && r.headers == CorsHeaders + Relayed(headers)
  {
  }

  /** An `HTTPError`: its status and body, the CORS headers and no upstream header. */
  lemma HttpErrorRelayed(cfg: Config, req: Request, upstream: Outbound -> Upstream, out: Outbound,
                         code: int, body: Bytes)
    requires Handle(cfg, req, upstream).Some?
    requires Handle(cfg, req, upstream).value.sent == Some(out)
    requires upstream(out) == HttpError(code, body)
    ensures Handle(cfg, req, upstream).value.response == Response(code, CorsHeaders, body)
  {
  }

  /** Any other failure: 500, the CORS headers, and the exception text encoded as UTF-8. */
  lemma FailureIs500(cfg: Config, req: Request, upstream: Outbound -> Upstream, out: Outbound, message: string)
    requires Handle(cfg, req, upstream).Some?
    requires Handle(cfg, req, upstream).value.sent == Some(out)
    requires upstream(out) == Failure(message)
    ensures var r := Handle(cfg, req, upstream).value.response;
            && r == Response(500, CorsHeaders, Encode(message))
            && Decode(r.body) == Some(message)
  {
    DecodeEncode(message);
  }

  /** The headers every handled response carries after `Server` and `Date`:
      the CORS headers, then, on success only, the relayed upstream headers. */
  lemma ResponseHeadersShape(cfg: Config, req: Request, upstream: Outbound -> Upstream)
    requires Handle(cfg, req, upstream).Some?
    ensures var x := Handle(cfg, req, upstream).value;
            var rest := x.response.headers[4..];
            && x.response.headers == CorsHeaders + rest
            && (rest == [] || (x.sent.Some? && upstream(x.sent.value).Ok? && rest == Relayed(upstream(x.sent.value).headers)))
  {
  }

  /** No CORS header has an excluded name: their names are all longer. */
  lemma CorsHasNoExcluded(name: string)
    requires name in ExcludedNames
    ensures Count(CorsHeaders, name) == 0
  {
    assert |name| <= 10;
    CountOtherLengths(CorsHeaders, name);
  }

  lemma CountAfterCors(rest: Headers, name: string)
    requires name in ExcludedNames
    ensures Count(CorsHeaders + rest, name) == Count(rest, name)
  {
    CorsHasNoExcluded(name);
    CountAppend(CorsHeaders, rest, name);
  }

  lemma NoExcludedAfterCors(rest: Headers, relayedFrom: Headers, name: string)
    requires name in ExcludedNames
    requires rest == [] || rest == Relayed(relayedFrom)
    ensures Count(CorsHeaders + rest, name) == 0
  {
    CountAfterCors(rest, name);
    if rest != [] {
      ListedNamesExcluded(name);
      RelayedDropsExcluded(relayedFrom, name);
    }
  }

  /** The handler itself never writes a header of an excluded name. */
  lemma NoExcludedFromHandler(cfg: Config, req: Request, upstream: Outbound -> Upstream, name: string)
    requires Handle(cfg, req, upstream).Some?
    requires name in ExcludedNames
    ensures Count(Handle(cfg, req, upstream).value.response.headers, name) == 0
  {
    var x := Handle(cfg, req, upstream).value;
    ResponseHeadersShape(cfg, req, upstream);
    var rest := x.response.headers[4..];
    var from := if x.sent.Some? && upstream(x.sent.value).Ok? then upstream(x.sent.value).headers else [];
    NoExcludedAfterCors(rest, from, name);
  }

  lemma CountOne(h: Header, name: string)
    ensures Count([h], name) == if SameName(h.0, name) then 1 else 0
  {
    assert [h][1..] == [];
  }

  lemma PreludeCounts(env: Env)
    ensures var prelude: Headers := [("Server", env.serverVersion), ("Date", env.date)];
            && Count(prelude, "server") == 1
            && Count(prelude, "date") == 1
            && Count(prelude, "connection") == 0
  {
    var server: Header := ("Server", env.serverVersion);
    var date: Header := ("Date", env.date);
    assert [server, date] == [server] + [date];
    assert SameName("Server", "server") by {
      assert ToLower("Server") == "server";
    }
    assert SameName("Date", "date") by {
      assert ToLower("Date") == "date";
    }
    CountOne(server, "server");
    CountOne(date, "server");
    CountOne(server, "date");
    CountOne(date, "date");
    CountOne(server, "connection");
    CountOne(date, "connection");
    CountAppend([server], [date], "server");
    CountAppend([server], [date], "date");
    CountAppend([server], [date], "connection");
  }

  /** On the wire every handled response has exactly one `Server` and one
      `Date` line, both the proxy's own, and no `Connection` line, whatever the
      upstream sent. */
  lemma OneServerOneDate(cfg: Config, req: Request, upstream: Outbound -> Upstream, env: Env)
    requires Handle(cfg, req, upstream).Some?
    ensures var w := OnWire(env, Handle(cfg, req, upstream).value.response);
            && Count(w, "server") == 1
            && Count(w, "date") == 1
            && Count(w, "connection") == 0
  {
    var r := Handle(cfg, req, upstream).value.response;
    var prelude: Headers := [("Server", env.serverVersion), ("Date", env.date)];
    PreludeCounts(env);
    NoExcludedFromHandler(cfg, req, upstream, "server");
    NoExcludedFromHandler(cfg, req, upstream, "date");
    NoExcludedFromHandler(cfg, req, upstream, "connection");
    CountAppend(prelude, r.headers, "server");
    CountAppend(prelude, r.headers, "date");
    CountAppend(prelude, r.headers, "connection");
  }
}

=== FILE: pyint.dfy ===
/** CPython's `int(s)` for a `str` argument in base 10, as the proxy applies it
    to the `Content-Length` header, together with the text of the `ValueError`
    it raises, which the proxy sends back as a response body.

    Within U+0000..U+00FF (all a header value decoded as ISO-8859-1 can hold)
    the only decimal digits are 0-9. */
module PyInt {
  import opened Options
  import opened PyRepr

  // ---------------------------------------------------------------- whitespace

  /** The whitespace `int()` skips around a literal, within U+0000..U+00FF.
      ASCII characters are judged by the C-locale test (TAB..CR and SPACE), so
      the information separators U+001C..U+001F, although `str.isspace`
      accepts them, are not skipped; of the characters above ASCII only NEL
      (U+0085) and NO-BREAK SPACE (U+00A0) are whitespace and count as a space. */
  predicate IsIntSpace(c: char) {
    var x := c as int;
    x == 0x20 || 0x09 <= x <= 0x0D || x == 0x85 || x == 0xA0
  }

  predicate IsDigit(c: char) {
    '0' <= c <= '9'
  }

  ghost predicate AllSpace(s: string) {
    forall i :: 0 <= i < |s| ==> IsIntSpace(s[i])
  }

  /** Length of the longest all-whitespace prefix of `s`. */
  function LeadingSpaces(s: string): (n: nat)
    ensures n <= |s|
    ensures forall i :: 0 <= i < n ==> IsIntSpace(s[i])
    ensures n < |s| ==> !IsIntSpace(s[n])
  {
    if |s| > 0 && IsIntSpace(s[0]) then 1 + LeadingSpaces(s[1..]) else 0
  }

  /** Length of the longest all-whitespace suffix of `s`. */
  function TrailingSpaces(s: string): (n: nat)
    ensures n <= |s|
    ensures forall i :: |s| - n <= i < |s| ==> IsIntSpace(s[i])
    ensures n < |s| ==> !IsIntSpace(s[|s| - n - 1])
  {
    if |s| > 0 && IsIntSpace(s[|s| - 1]) then 1 + TrailingSpaces(s[..|s| - 1]) else 0
  }

  /** The part of `s` that `int()` reads: `s` with its whitespace removed at both ends. */
  function Strip(s: string): (t: string)
    ensures t == [] || (!IsIntSpace(t[0]) && !IsIntSpace(t[|t| - 1]))
    ensures LeadingSpaces(s) + |t| <= |s|
    ensures t == s[LeadingSpaces(s)..LeadingSpaces(s) + |t|]
    ensures AllSpace(s[LeadingSpaces(s) + |t|..])
  {
    var rest := s[LeadingSpaces(s)..];
    rest[..|rest| - TrailingSpaces(rest)]
  }

  /** Any way of writing `s` as whitespace, then `t`, then whitespace, with `t`
      empty or bounded by non-whitespace, finds exactly `Strip(s)`. */
  lemma StripUnique(s: string, i: nat, t: string)
    requires i + |t| <= |s| && s[i..i + |t|] == t
    requires AllSpace(s[..i]) && AllSpace(s[i + |t|..])
    requires t == [] || (!IsIntSpace(t[0]) && !IsIntSpace(t[|t| - 1]))
    ensures Strip(s) == t
  {
    forall k | 0 <= k < i
      ensures IsIntSpace(s[k])
    {
      assert s[..i][k] == s[k];
    }
    forall k | i + |t| <= k < |s|
      ensures IsIntSpace(s[k])
    {
      assert s[i + |t|..][k - i - |t|] == s[k];
    }
    if t != [] {
      assert s[i] == t[0] && s[i + |t| - 1] == t[|t| - 1];
    }
    var n := LeadingSpaces(s);
    assert n == i || (t == [] && n == |s|);
    var rest := s[n..];
    assert n == i ==> |t| <= |rest| && rest[..|t|] == t;
    var m := TrailingSpaces(rest);
    assert m == |rest| - |t| || (t == [] && m == |rest|);
  }

  /** `int()` ignores whitespace added at either end. */
  lemma StripIgnoresPadding(p: string, s: string, q: string)
    requires AllSpace(p) && AllSpace(q)
    ensures Strip(p + s + q) == Strip(s)
  {
    var t := Strip(s);
    var n := LeadingSpaces(s);
    var u := p + s + q;
    var i := |p| + n;
    assert u[i..i + |t|] == s[n..n + |t|];
    assert u[..i] == p + s[..n];
    assert u[i + |t|..] == s[n + |t|..] + q;
    StripUnique(u, i, t);
  }

  // ---------------------------------------------------------------- digits

  /** Digits in groups separated by single underscores: `1_000` is one,
      `_1`, `1_` and `1__0` are not. */
  predicate IsGrouped(t: string) {
    && |t| > 0
    && IsDigit(t[0])
    && IsDigit(t[|t| - 1])
    && (forall i :: 0 <= i < |t| ==> IsDigit(t[i]) || t[i] == '_')
    && (forall i :: 0 <= i < |t| - 1 ==> t[i] == '_' ==> IsDigit(t[i + 1]))
  }

  function DigitValue(c: char): (d: nat)
    requires IsDigit(c)
    ensures d < 10
  {
    c as int - '0' as int
  }

  /** The number the digits of `t` spell, underscores skipped. */
  function DigitsValue(t: string): nat
    requires forall i :: 0 <= i < |t| ==> IsDigit(t[i]) || t[i] == '_'
  {
    if |t| == 0 then 0
    else if t[|t| - 1] == '_' then DigitsValue(t[..|t| - 1])
    else 10 * DigitsValue(t[..|t| - 1]) + DigitValue(t[|t| - 1])
  }

  /** `int(s)`: `Some(n)` when `s` is optional whitespace, an optional sign,
      underscore-grouped digits and optional whitespace; `None` where CPython
      raises `ValueError`. Leading zeros are accepted in base 10. */
  function ParseInt(s: string): (r: Option<int>)
    ensures r.Some? ==> exists i :: 0 <= i < |s| && IsDigit(s[i])
    ensures r.Some? && r.value < 0 ==> '-' in s
  {
    var t := Strip(s);
    var n := LeadingSpaces(s);
    if |t| > 0 && (t[0] == '+' || t[0] == '-') then
      var d := t[1..];
      if IsGrouped(d) then
        assert IsDigit(s[n + 1]) by { assert s[n + 1] == d[0]; }
        assert s[n] == t[0];
        var v: int := DigitsValue(d);
        Some(if t[0] == '-' then -v else v)
      else None
    else if IsGrouped(t) then
      assert IsDigit(s[n]) by { assert s[n] == t[0]; }
      Some(DigitsValue(t))
    else None
  }

  /** The decimal digits of `n`, without leading zeros. */
  function Decimal(n: nat): (s: string)
    ensures |s| > 0
    ensures forall i :: 0 <= i < |s| ==> IsDigit(s[i])
    ensures |s| > 1 ==> s[0] != '0'
  {
    if n < 10 then ['0' + n as char] else Decimal(n / 10) + ['0' + (n % 10) as char]
  }

  /** `str(n)`. */
  function FormatInt(n: int): string {
    if n < 0 then "-" + Decimal(-n) else Decimal(n)
  }

  lemma {:induction false} DigitsValueOfDecimal(n: nat)
    ensures DigitsValue(Decimal(n)) == n
  {
    if n >= 10 {
      var s := Decimal(n);
      assert s[..|s| - 1] == Decimal(n / 10);
      DigitsValueOfDecimal(n / 10);
    }
  }

  /** Round trip: `int(str(n)) == n` for every integer. */
  lemma ParseFormat(n: int)
    ensures ParseInt(FormatInt(n)) == Some(n)
  {
    var f := FormatInt(n);
    var d := Decimal(if n < 0 then -n else n);
    DigitsValueOfDecimal(if n < 0 then -n else n);
    assert !IsIntSpace(f[0]) && !IsIntSpace(f[|f| - 1]);
    StripUnique(f, 0, f);
    if n < 0 {
      assert f[1..] == d;
    }
  }

  /** The same literal padded with whitespace parses to the same value. */
  lemma ParseIgnoresPadding(p: string, s: string, q: string)
    requires AllSpace(p) && AllSpace(q)
    ensures ParseInt(p + s + q) == ParseInt(s)
  {
    StripIgnoresPadding(p, s, q);
  }

  /** A literal that starts with anything but whitespace, a sign or a digit is
      rejected; the information separators U+001C..U+001F are such characters. */
  lemma ParseRejectsForeignStart(c: char, s: string)
    requires !IsIntSpace(c) && !IsDigit(c) && c != '+' && c != '-'
    ensures ParseInt([c] + s) == None
  {
    var t := Strip([c] + s);
    assert LeadingSpaces([c] + s) == 0;
    assert t[0] == c;
  }

  // ---------------------------------------------------------------- the ValueError text

  const Prefix: string := "invalid literal for int() with base 10: "

  /** `str(e)` for the `ValueError` that `int(s)` raises: the fixed prefix and
      `repr(s)` cut to its first 200 characters (the `%.200R` of CPython's format). */
  function ValueErrorMessage(s: string): (m: string)
    ensures |Prefix| <= |m| <= |Prefix| + 200
    ensures m[..|Prefix|] == Prefix
  {
    var r := Repr(s);
    Prefix + (if |r| <= 200 then r else r[..200])
  }

  /** A value whose `repr` fits in 200 characters can be read back from the
      error message in full. */
  lemma MessageKeepsShortValue(s: string)
    requires |Repr(s)| <= 200
    ensures Unrepr(ValueErrorMessage(s)[|Prefix|..]) == Some(s)
  {
    assert ValueErrorMessage(s)[|Prefix|..] == Repr(s);
    UnreprRepr(s);
  }
}

=== FILE: repr.dfy ===
/** CPython's `repr` of a `str`, which the `ValueError` text of `int()` quotes,
    and a reader that recovers the original text from it. Characters are
    judged printable as `str.isprintable` does within U+0000..U+00FF. */
module PyRepr {
  import opened Options

  /** `c.isprintable()` for c in U+0000..U+00FF: every character except the C0
      and C1 controls, DEL, NO-BREAK SPACE and SOFT HYPHEN. */
  predicate IsPrintable(c: char) {
    var x := c as int;
    !(x < 0x20 || 0x7F <= x <= 0xA0 || x == 0xAD)
  }

  const HexDigits: string := "0123456789abcdef"

  /** The quote `repr(s)` is written with: a double quote when `s` holds a
      single quote and no double quote, a single quote otherwise. */
  function QuoteFor(s: string): (q: char)
    ensures q == '\'' || q == '"'
    ensures q in s ==> '\'' in s && '"' in s
  {
    if '\'' in s && '"' !in s then '"' else '\''
  }

  /** How `repr` writes one character inside quotes `q`. */
  function EscapeChar(c: char, q: char): (e: string)
    ensures 1 <= |e| <= 4
    ensures (|e| == 1) == (e == [c])
  {
    if c == q || c == '\\' then ['\\', c]
    else if c == '\t' then "\\t"
    else if c == '\n' then "\\n"
    else if c == '\r' then "\\r"
    else if !IsPrintable(c) then "\\x" + [HexDigits[c as int / 16], HexDigits[c as int % 16]]
    else [c]
  }

  function Escape(s: string, q: char): string {
    if s == [] then [] else EscapeChar(s[0], q) + Escape(s[1..], q)
  }

  /** `repr(s)`. */
  function Repr(s: string): (r: string)
    ensures |r| >= |s| + 2
    ensures r[0] == r[|r| - 1] == QuoteFor(s)
  {
    EscapeLength(s, QuoteFor(s));
    [QuoteFor(s)] + Escape(s, QuoteFor(s)) + [QuoteFor(s)]
  }

  lemma {:induction false} EscapeLength(s: string, q: char)
    ensures |Escape(s, q)| >= |s|
  {
    if s != [] {
      EscapeLength(s[1..], q);
    }
  }

  // ---------------------------------------------------------------- reading repr back

  function HexValue(c: char): Option<nat> {
    if '0' <= c <= '9' then Some(c as int - '0' as int)
    else if 'a' <= c <= 'f' then Some(c as int - 'a' as int + 10)
    else None
  }

  /** The character written at the front of `e` inside quotes `q`, and how
      many characters it takes; `None` for an unescaped quote or an unknown escape. */
  function UnescapeFirst(e: string, q: char): (r: Option<(char, nat)>)
    ensures r.Some? ==> 1 <= r.value.1 <= |e|
  {
    if |e| == 0 || e[0] == q then None
    else if e[0] != '\\' then Some((e[0], 1))
    else if |e| < 2 then None
    else if e[1] == '\\' || e[1] == q then Some((e[1], 2))
    else if e[1] == 't' then Some(('\t', 2))
    else if e[1] == 'n' then Some(('\n', 2))
    else if e[1] == 'r' then Some(('\r', 2))
    else if e[1] == 'x' && |e| >= 4 && HexValue(e[2]).Some? && HexValue(e[3]).Some? then
      Some(((HexValue(e[2]).value * 16 + HexValue(e[3]).value) as char, 4))
    else None
  }

  function Unescape(e: string, q: char): Option<string>
    decreases |e|
  {
    if |e| == 0 then Some([])
    else
      match UnescapeFirst(e, q)
      case None => None
      case Some((c, n)) =>
        match Unescape(e[n..], q)
        case None => None
        case Some(rest) => Some([c] + rest)
  }

  /** Reads a `repr` back: the quote that opens it must close it. */
  function Unrepr(r: string): Option<string> {
    if |r| >= 2 && (r[0] == '\'' || r[0] == '"') && r[|r| - 1] == r[0] then
      Unescape(r[1..|r| - 1], r[0])
    else None
  }

  lemma HexRoundTrip(k: nat)
    requires k < 16
    ensures HexValue(HexDigits[k]) == Some(k)
  {
  }

  lemma UnescapeFirstOfEscaped(c: char, q: char, rest: string)
    requires q == '\'' || q == '"'
    ensures UnescapeFirst(EscapeChar(c, q) + rest, q) == Some((c, |EscapeChar(c, q)|))
  {
    if c != q && c != '\\' && c != '\t' && c != '\n' && c != '\r' && !IsPrintable(c) {
      var x := c as int;
      HexRoundTrip(x / 16);
      HexRoundTrip(x % 16);
      var e := EscapeChar(c, q) + rest;
      assert e[2] == HexDigits[x / 16] && e[3] == HexDigits[x % 16];
    }
  }

  lemma {:induction false} UnescapeEscape(s: string, q: char)
    requires q == '\'' || q == '"'
    ensures Unescape(Escape(s, q), q) == Some(s)
  {
    if s != [] {
      var e := EscapeChar(s[0], q);
      UnescapeFirstOfEscaped(s[0], q, Escape(s[1..], q));
      assert (e + Escape(s[1..], q))[|e|..] == Escape(s[1..], q);
      UnescapeEscape(s[1..], q);
      assert [s[0]] + s[1..] == s;
    }
  }

  /** Round trip: `repr` loses nothing, so distinct strings have distinct `repr`s. */
  lemma UnreprRepr(s: string)
    ensures Unrepr(Repr(s)) == Some(s)
  {
    var r := Repr(s);
    assert r[1..|r| - 1] == Escape(s, QuoteFor(s));
    UnescapeEscape(s, QuoteFor(s));
  }

  /** A value of printable characters without quotes or backslashes appears
      verbatim between single quotes. */
  lemma {:induction false} ReprOfPlain(s: string)
    requires forall i :: 0 <= i < |s| ==> IsPrintable(s[i]) && s[i] !in "'\"\\"
    ensures Repr(s) == "'" + s + "'"
  {
    EscapePlain(s, '\'');
  }

  lemma {:induction false} EscapePlain(s: string, q: char)
    requires q == '\'' || q == '"'
    requires forall i :: 0 <= i < |s| ==> IsPrintable(s[i]) && s[i] !in "'\"\\"
    ensures Escape(s, q) == s
  {
    if s != [] {
      EscapePlain(s[1..], q);
      assert [s[0]] + s[1..] == s;
    }
  }
}

=== FILE: text.dfy ===
/** Bytes and the two text transformations the proxy relies on: Python's
    `str.lower` (applied to header names) and `str.encode()` (UTF-8, applied to
    the text of an exception that becomes a response body).

    Header text reaches the handler decoded as ISO-8859-1, so every character
    it sees lies in U+0000..U+00FF; `str.lower` is modelled exactly on that
    range and leaves every other character unchanged. */
module Text {
  import opened Options

  newtype byte = x: int | 0 <= x < 0x100

  type Bytes = seq<byte>

  // ---------------------------------------------------------------- case

  /** The characters of U+0000..U+00FF that `str.lower` changes: A-Z and the
      Latin-1 capitals U+00C0..U+00DE except U+00D7 (the multiplication sign). */
  predicate IsUpper(c: char) {
    var x := c as int;
    (0x41 <= x <= 0x5A) || (0xC0 <= x <= 0xDE && x != 0xD7)
  }

  /** `c.lower()` for one character: a capital moves 32 code points up. */
  function LowerChar(c: char): (d: char)
    ensures !IsUpper(d)
    ensures IsUpper(c) || d == c
  {
    if IsUpper(c) then (c as int + 32) as char else c
  }

  /** `s.lower()`: each character lowered on its own. */
  function ToLower(s: string): (t: string)
    ensures |t| == |s|
    ensures forall i :: 0 <= i < |t| ==> !IsUpper(t[i])
  {
    seq(|s|, i requires 0 <= i < |s| => LowerChar(s[i]))
  }

  /** `a` is `b` with some of `b`'s small letters written as capitals. */
  ghost predicate CaseVariantOf(a: string, b: string) {
    && |a| == |b|
    && forall i :: 0 <= i < |a| ==> a[i] == b[i] || (IsUpper(a[i]) && a[i] as int + 32 == b[i] as int)
  }

  /** Lower-casing is idempotent. */
  lemma ToLowerIdempotent(s: string)
    ensures ToLower(ToLower(s)) == ToLower(s)
  {
  }

  /** For a `b` without capitals, `ToLower(a) == b` holds exactly for the case variants of `b`. */
  lemma ToLowerIsCaseVariant(a: string, b: string)
    requires forall i :: 0 <= i < |b| ==> !IsUpper(b[i])
    ensures ToLower(a) == b <==> CaseVariantOf(a, b)
  {
    if CaseVariantOf(a, b) {
      forall i | 0 <= i < |a|
        ensures ToLower(a)[i] == b[i]
      {
      }
    }
  }

  // ---------------------------------------------------------------- UTF-8

  /** The UTF-8 encoding of one Unicode scalar value (RFC 3629, section 3). */
  function EncodeChar(c: char): (bs: Bytes)
    ensures 1 <= |bs| <= 4
    ensures |bs| == 1 <==> c as int < 0x80
  {
    var x := c as int;
    if x < 0x80 then
      [x as byte]
    else if x < 0x800 then
      [(0xC0 + x / 64) as byte, (0x80 + x % 64) as byte]
    else if x < 0x10000 then
      [(0xE0 + x / 4096) as byte, (0x80 + (x / 64) % 64) as byte, (0x80 + x % 64) as byte]
    else
      [(0xF0 + x / 262144) as byte, (0x80 + (x / 4096) % 64) as byte,
       (0x80 + (x / 64) % 64) as byte, (0x80 + x % 64) as byte]
  }

  /** `s.encode()`: Python's default codec is UTF-8. */
  function Encode(s: string): (bs: Bytes)
    ensures |s| <= |bs| <= 4 * |s|
  {
    if s == [] then [] else EncodeChar(s[0]) + Encode(s[1..])
  }

  predicate IsContinuation(b: byte) {
    0x80 <= b < 0xC0
  }

  /** The first scalar value encoded at the front of `bs` and the number of
      bytes it takes; `None` when the front is not well-formed UTF-8
      (a stray continuation byte, an over-long form, a surrogate, a value above
      U+10FFFF or a truncated sequence). */
  function DecodeFirst(bs: Bytes): (r: Option<(char, nat)>)
    ensures r.Some? ==> 1 <= r.value.1 <= |bs| && r.value.1 <= 4
  {
    if |bs| == 0 then None
    else
      var b0 := bs[0] as int;
      if b0 < 0x80 then
        Some((b0 as char, 1))
      else if 0xC2 <= b0 < 0xE0 then
        if |bs| >= 2 && IsContinuation(bs[1]) then
          Some((((b0 - 0xC0) * 64 + (bs[1] as int - 0x80)) as char, 2))
        else None
      else if 0xE0 <= b0 < 0xF0 then
        if |bs| >= 3 && IsContinuation(bs[1]) && IsContinuation(bs[2]) then
          var x := (b0 - 0xE0) * 4096 + (bs[1] as int - 0x80) * 64 + (bs[2] as int - 0x80);
          if 0x800 <= x && !(0xD800 <= x < 0xE000) then Some((x as char, 3)) else None
        else None
      else if 0xF0 <= b0 < 0xF5 then
        if |bs| >= 4 && IsContinuation(bs[1]) && IsContinuation(bs[2]) && IsContinuation(bs[3]) then
          var x := (b0 - 0xF0) * 262144 + (bs[1] as int - 0x80) * 4096
                   + (bs[2] as int - 0x80) * 64 + (bs[3] as int - 0x80);
          if 0x10000 <= x < 0x110000 then Some((x as char, 4)) else None
        else None
      else None
  }

  /** `bs.decode()`, strict: `None` where Python raises `UnicodeDecodeError`. */
  function Decode(bs: Bytes): Option<string>
    decreases |bs|
  {
    if |bs| == 0 then Some([])
    else
      match DecodeFirst(bs)
      case None => None
      case Some((c, n)) =>
        match Decode(bs[n..])
        case None => None
        case Some(rest) => Some([c] + rest)
  }

  lemma DivMod64(x: int)
    requires x >= 0
    ensures x / 4096 == (x / 64) / 64
    ensures x / 262144 == (x / 4096) / 64
  {
  }

  /** Decoding the encoding of `c` in front of anything gives `c` back. */
  lemma DecodeFirstOfEncoded(c: char, rest: Bytes)
    ensures DecodeFirst(EncodeChar(c) + rest) == Some((c, |EncodeChar(c)|))
  {
    var x := c as int;
    var bs := EncodeChar(c) + rest;
    if x < 0x80 {
    } else if x < 0x800 {
      assert bs[0] as int - 0xC0 == x / 64;
    } else if x < 0x10000 {
      DivMod64(x);
      assert bs[0] as int - 0xE0 == x / 4096;
    } else {
      DivMod64(x);
      assert bs[0] as int - 0xF0 == x / 262144;
    }
  }

  /** Round trip: the encoding of every string decodes to that string. */
  lemma {:induction false} DecodeEncode(s: string)
    ensures Decode(Encode(s)) == Some(s)
  {
    if s != [] {
      var e := EncodeChar(s[0]);
      DecodeFirstOfEncoded(s[0], Encode(s[1..]));
      assert (e + Encode(s[1..]))[|e|..] == Encode(s[1..]);
      DecodeEncode(s[1..]);
      assert [s[0]] + s[1..] == s;
    }
  }

  lemma EncodeDecodeFirst2(bs: Bytes)
    requires |bs| >= 2 && 0xC2 <= bs[0] < 0xE0 && IsContinuation(bs[1])
    ensures DecodeFirst(bs).Some? && DecodeFirst(bs).value.1 == 2
    ensures bs[..2] == EncodeChar(DecodeFirst(bs).value.0)
  {
    var x := (bs[0] as int - 0xC0) * 64 + (bs[1] as int - 0x80);
    assert x / 64 == bs[0] as int - 0xC0 && x % 64 == bs[1] as int - 0x80;
  }

  lemma EncodeDecodeFirst3(bs: Bytes)
    requires |bs| >= 3 && 0xE0 <= bs[0] < 0xF0 && DecodeFirst(bs).Some?
    ensures DecodeFirst(bs).value.1 == 3
    ensures bs[..3] == EncodeChar(DecodeFirst(bs).value.0)
  {
    var x := (bs[0] as int - 0xE0) * 4096 + (bs[1] as int - 0x80) * 64 + (bs[2] as int - 0x80);
    DivMod64(x);
    assert x / 64 == (bs[0] as int - 0xE0) * 64 + (bs[1] as int - 0x80);
    assert x % 64 == bs[2] as int - 0x80;
    assert x / 4096 == bs[0] as int - 0xE0;
  }

  lemma EncodeDecodeFirst4(bs: Bytes)
    requires |bs| >= 4 && 0xF0 <= bs[0] && DecodeFirst(bs).Some?
    ensures DecodeFirst(bs).value.1 == 4
    ensures bs[..4] == EncodeChar(DecodeFirst(bs).value.0)
  {
    var x := (bs[0] as int - 0xF0) * 262144 + (bs[1] as int - 0x80) * 4096
             + (bs[2] as int - 0x80) * 64 + (bs[3] as int - 0x80);
    DivMod64(x);
    assert x / 64 == (bs[0] as int - 0xF0) * 4096 + (bs[1] as int - 0x80) * 64 + (bs[2] as int - 0x80);
    assert x % 64 == bs[3] as int - 0x80;
    assert x / 4096 == (bs[0] as int - 0xF0) * 64 + (bs[1] as int - 0x80);
    assert x / 262144 == bs[0] as int - 0xF0;
  }

  /** The bytes a successful `DecodeFirst` consumes are the encoding of the character it returns. */
  lemma EncodeDecodeFirst(bs: Bytes)
    requires DecodeFirst(bs).Some?
    ensures bs[..DecodeFirst(bs).value.1] == EncodeChar(DecodeFirst(bs).value.0)
  {
    var b0 := bs[0] as int;
    if b0 < 0x80 {
    } else if b0 < 0xE0 {
      EncodeDecodeFirst2(bs);
    } else if b0 < 0xF0 {
      EncodeDecodeFirst3(bs);
    } else {
      EncodeDecodeFirst4(bs);
    }
  }

  /** Round trip the other way: whatever decodes re-encodes to the same bytes. */
  lemma {:induction false} EncodeDecode(bs: Bytes)
    requires Decode(bs).Some?
    ensures Encode(Decode(bs).value) == bs
    decreases |bs|
  {
    if |bs| > 0 {
      var (c, n) := DecodeFirst(bs).value;
      EncodeDecodeFirst(bs);
      EncodeDecode(bs[n..]);
      var s := Decode(bs).value;
      assert s == [c] + Decode(bs[n..]).value;
      assert s[1..] == Decode(bs[n..]).value;
      assert bs == bs[..n] + bs[n..];
    }
  }

  /** A string of ASCII characters encodes one byte per character, each byte its code point. */
  lemma {:induction false} EncodeAscii(s: string)
    requires forall i :: 0 <= i < |s| ==> s[i] as int < 0x80
    ensures |Encode(s)| == |s|
    ensures forall i :: 0 <= i < |s| ==> Encode(s)[i] as int == s[i] as int
  {
    if s != [] {
      EncodeAscii(s[1..]);
      forall i | 1 <= i < |s|
        ensures Encode(s)[i] as int == s[i] as int
      {
        assert Encode(s)[i] == Encode(s[1..])[i - 1];
      }
    }
  }

  /** Encoding distributes over concatenation. */
  lemma {:induction false} EncodeAppend(a: string, b: string)
    ensures Encode(a + b) == Encode(a) + Encode(b)
  {
    if a == [] {
      assert a + b == b;
    } else {
      assert (a + b)[1..] == a[1..] + b;
      EncodeAppend(a[1..], b);
      assert a + b != [] && (a + b)[0] == a[0];
      calc {
        Encode(a + b);
        EncodeChar(a[0]) + Encode(a[1..] + b);
        EncodeChar(a[0]) + (Encode(a[1..]) + Encode(b));
        (EncodeChar(a[0]) + Encode(a[1..])) + Encode(b);
      }
    }
  }
}
